=== FILE: README.md ===
# Meet results site generator — a Dafny model

`csv_to_meets_html.py` builds a small static web site for a cross-country
team. Every `*.csv` file in the `meets` folder holds one meet's results:
a header row, then one row per runner. For each file the generator writes
a results page next to it. The page has a title and heading naming the
meet, a summary paragraph, a team table with every row, and one "card"
per runner with a profile picture. It then writes `index.html`, which
links to every page.

This project models the part of the program that builds strings:

- **Names** (`MeetNames`). A CSV file name gives the meet name (every `_`
  becomes a space, then every `.csv` is deleted) and the page name (every
  `.csv` becomes `.html`). A runner's name gives the picture path. Python's
  `str.replace`, `str.endswith` and two-argument POSIX `os.path.join` are modelled
  in `Text` and `MeetNames`.
- **Index** (`IndexPage`). A directory listing gives one
  `<li><a href="meets/…">…</a></li>` line per `.csv` entry, placed inside
  the fixed index document.
- **Meet page** (`MeetPage`). The rows of a CSV file give the fixed page
  document. The team table accepts rows of any width. The card pass unpacks
  every data row into exactly four fields. Errors are values of a `Result`
  type: no header row, or a data row of the wrong width.
- **Run** (`Generator`). The loop over the listing renders the pages in
  order and stops at the first file that cannot be read or rendered. If
  every file renders, it then writes the index.

The renderers copy names and cells into the markup without escaping. So the
partner of each renderer is a **reader** (`PageReader`, and `ReadIndex` in
`IndexPage`) that takes the markup apart again. The round-trip lemmas show
that the reader gives back exactly what was rendered. They hold when no
cell and no meet name contains `<`, no file name contains `"`, `<` or `/`,
and no runner name contains `'`. `PageReader.MarkupInCellsIsAmbiguous`
shows why the restriction on cells is needed.

Four behaviours of the code are easy to miss:

- **Meet name.** The meet name deletes every `.csv` in the file name, not
  only the extension (`MeetNames.DisplayNameAtExtension`).
- **Index listing.** The index is built from its own listing of the
  folder, not from the scan that produced the pages. The folder is listed
  a second time, after the pages have been written.
  `Generator.RelistingKeepsIndex` shows that this gives the same index,
  provided the second listing keeps the first listing's order.
- **Pages vs files.** Different CSV files can map to the same page, so
  there is not always one page per input file
  (`MeetNames.DistinctSourcesCanShareAPage`). `Generator.IndexAgreesWithPages`
  compares link i with the i-th page written, not with the file left on
  disk. For example, `x.csv.csv` and `x.html.csv` both write
  `meets/x.html.html`. The first link's text is `x`, but the file left at
  its target is the later page, whose heading is `x.html`.
- **Summary placeholder.** The summary keeps its `{meet_name}` placeholder
  as written, because that line is not an f-string.

## Model

| member | source | states |
|---|---|---|
| Text.ReplaceAll | csv_to_meets_html.py:13-14 | Python's `str.replace`: a left-to-right scan that replaces each occurrence and resumes after it; its behaviour is stated by the four lemmas below |
| Text.ReplaceAllAtOccurrence | csv_to_meets_html.py:14 | `str.replace` with a pattern that cannot overlap itself always finds and replaces an occurrence, and the text before and after it is rewritten independently |
| Text.ReplaceCharPointwise | csv_to_meets_html.py:13 | replacing one character by another keeps the length and maps each position independently |
| Text.ReplaceAllChars | csv_to_meets_html.py:13-14 | `str.replace` never invents characters: each comes from the input or the replacement |
| Text.ReplaceAllWithoutOccurrence | csv_to_meets_html.py:14 | `str.replace` leaves a string without any occurrence of the pattern unchanged |
| MeetNames.CsvExtNoSelfOverlap | csv_to_meets_html.py:14 | two occurrences of `.csv` can never overlap |
| MeetNames.DisplayName | csv_to_meets_html.py:13 | the meet name contains no `_`, and every character of it is a character of the file name or a space |
| MeetNames.DisplayNameAtExtension | csv_to_meets_html.py:13 | every `.csv` in the file name is deleted from the meet name, wherever it occurs, not only the final one |
| MeetNames.DisplayNameStripsExtension | csv_to_meets_html.py:142 | the meet name of `stem.csv` is the meet name of `stem` |
| MeetNames.DisplayNameOfPlainStem | csv_to_meets_html.py:142 | for any stem in which `.csv` does not occur, the meet name of `stem.csv` is the stem with each `_` read as a space, position by position |
| MeetNames.HtmlFileName | csv_to_meets_html.py:14 | the page name of a name ending in `.csv` ends in `.html` and no longer ends in `.csv`, and it holds no characters beyond the file name's and `.html`'s |
| MeetNames.HtmlNameAtExtension | csv_to_meets_html.py:144 | every `.csv` in the file name becomes `.html` in the page name, wherever it occurs |
| MeetNames.HtmlNameOfCsv | csv_to_meets_html.py:144 | the page of `stem.csv` is the page name of `stem` followed by `.html` |
| MeetNames.HtmlNameOfCsvFree | csv_to_meets_html.py:144 | a stem in which `.csv` does not occur is its own page name, and so is that stem followed by `.html` |
| MeetNames.HtmlExtAddsNoCsv | csv_to_meets_html.py:144 | appending `.html` to a name without `.csv` creates no `.csv` |
| MeetNames.DistinctSourcesCanShareAPage | csv_to_meets_html.py:144-145 | `x.csv.csv` and `x.html.csv` are different meet files that are written to the same page |
| MeetNames.ProfileImagePath | csv_to_meets_html.py:120 | the card's `src`: `../images/profiles/` + the picture name + `.jpg`; `PageReader.CardReadsBack` states that a card shows it |
| MeetNames.PathJoin | csv_to_meets_html.py:143-144 | POSIX two-argument `os.path.join`; `IndexPage.LinkTargetIsOutputPath` states that it gives the same path as the index link |
| MeetNames.IsMeetCsv | csv_to_meets_html.py:12 | the `filename.endswith(".csv")` test, also applied on line 141, that picks which entries get a link and a page; `MeetNames.ScanOfEntry`, `IndexPage.MeetLinksOfEntry` and `IndexPage.MeetLinksOfScan` state it |
| MeetNames.RecordFor | csv_to_meets_html.py:141-144 | the source path, page path and meet name the loop derives for a `.csv` entry; `MeetNames.ScanOfEntry` and `IndexPage.MeetLinksOfScan` state how they are used |
| MeetNames.ImageName | csv_to_meets_html.py:120 | the picture name has the runner name's length, each space becomes `_`, every other character is kept, and no space remains |
| MeetNames.RunnersCanShareAPicture | csv_to_meets_html.py:120 | `first last` and `first_last` are different runners with the same picture |
| MeetNames.Scan | csv_to_meets_html.py:140-144 | the scan gives at most one record per entry of the listing |
| MeetNames.ScanCoversListing | csv_to_meets_html.py:140-144 | every `.csv` entry of the listing has its record |
| MeetNames.ScanAppend | csv_to_meets_html.py:140-144 | the scan of a concatenated listing is the scan of the first part followed by the scan of the second, so records keep listing order |
| MeetNames.ScanOfEntry | csv_to_meets_html.py:141-144 | a single entry gives exactly one record, derived from its name, if it ends in `.csv`, and none otherwise |
| MeetNames.ScanComesFromListing | csv_to_meets_html.py:140-144 | every record is derived from a `.csv` entry of the listing |
| IndexPage.MeetLinks | csv_to_meets_html.py:8-17 | `generate_meet_links`: one line per `.csv` entry, in listing order; stated by `MeetLinksEmpty`, `MeetLinksAppend`, `MeetLinksOfEntry` and `MeetLinksOfScan` |
| IndexPage.IndexHtml | csv_to_meets_html.py:19-48 | the index document around the link list; `IndexPage.IndexReadsBack` states that it reads back as the links |
| IndexPage.MeetLinksEmpty | csv_to_meets_html.py:8-17 | the link list is empty exactly when no entry of the listing ends in `.csv` |
| IndexPage.MeetLink | csv_to_meets_html.py:13-15 | the line-15 list line for one `.csv` entry, linking its page name under its meet name; `IndexPage.MeetLinksOfEntry` and `IndexPage.MeetLinksOfScan` state it |
| IndexPage.EntryLink | csv_to_meets_html.py:12-16 | the `if` of lines 12-16: a `.csv` entry gives its list line and any other entry gives nothing; `IndexPage.MeetLinksOfEntry` states it |
| IndexPage.MeetLinksAppend | csv_to_meets_html.py:10-16 | the link list of a concatenated listing is the concatenation of the two lists, so lines appear in listing order |
| IndexPage.MeetLinksOfEntry | csv_to_meets_html.py:11-16 | one entry gives `<li><a href="meets/{html}">{name}</a></li>` plus a newline if it ends in `.csv`, and nothing otherwise |
| IndexPage.ReadOneLink | csv_to_meets_html.py:15 | a list line is read back into its target and its text |
| IndexPage.LinkTargetIsOutputPath | csv_to_meets_html.py:13-15 | for every entry name, the link target is exactly the path the page is written to |
| IndexPage.MeetLinksOfScan | csv_to_meets_html.py:8-17 | for every listing of entry names, the list is one line per scanned record, in order, linking the record's page path under its meet name |
| IndexPage.LinkFieldsClean | csv_to_meets_html.py:13-15 | a link's target and text are each free of `"` and of `<` when the entry name is |
| IndexPage.MeetLinksReadBack | csv_to_meets_html.py:8-17 | the list reads back as one link per scanned record, in order |
| IndexPage.CsvLinkReadBack | csv_to_meets_html.py:12-16 | a `.csv` entry adds its link in front of the links of the rest of the listing |
| IndexPage.IndexReadsBack | csv_to_meets_html.py:19-48 | the index document reads back as the links to the scanned records: each target is the record's page path and each text is its meet name |
| MeetPage.Unpack | csv_to_meets_html.py:117 | unpacking succeeds exactly on four-cell rows and gives back the cells in order; otherwise it reports the row's width |
| MeetPage.Runners | csv_to_meets_html.py:116-117 | the card pass succeeds exactly when every data row has four cells, keeping every row; otherwise it fails on the first bad row with that row's width |
| MeetPage.Head | csv_to_meets_html.py:57-89 | the page up to the header cells, with the meet name in the title and the heading; `PageReader.HeadReadsBack` states it |
| MeetPage.TeamTable | csv_to_meets_html.py:91-103 | the header cells, one row per data row and the table's end; `PageReader.TeamTableReadsBack` states it |
| MeetPage.Card | csv_to_meets_html.py:118-128 | one runner's card; `PageReader.CardReadsBack` states it |
| MeetPage.IndividualSection | csv_to_meets_html.py:105-132 | the cards between the section start and the page's end; `PageReader.IndividualReadsBack` states it |
| MeetPage.CreateMeetHtml | csv_to_meets_html.py:50-132 | rendering fails exactly when there is no header row or some data row is not four cells wide, with no header row or the first bad row's width as the error |
| PageReader.CellsReadBack | csv_to_meets_html.py:92-100 | wrapped cells are read back cell by cell, verbatim and in order |
| PageReader.RowReadsBack | csv_to_meets_html.py:97-101 | one table row is read back as its cells |
| PageReader.RowsReadBack | csv_to_meets_html.py:96-101 | data rows of any widths are read back row by row |
| PageReader.TeamTableReadsBack | csv_to_meets_html.py:91-103 | the team table reads back as the header row and every data row, cell for cell, whatever the widths |
| PageReader.TableAcceptsWhatCardsRefuse | csv_to_meets_html.py:97-117 | a data row that is not four cells wide is still rendered and read back by the team table, but it makes the page fail |
| PageReader.ProfileImagePathUnquoted | csv_to_meets_html.py:120 | a picture path holds a quote only if the runner's name does |
| PageReader.CardReadsBack | csv_to_meets_html.py:118-128 | a card reads back as the picture path from the runner's name, the raw name as `alt`, and the four raw fields |
| PageReader.CardsReadBack | csv_to_meets_html.py:116-128 | consecutive cards read back one per runner, in order |
| PageReader.SummaryIsTagFree | csv_to_meets_html.py:82 | the summary prose holds no tag and carries the literal `{meet_name}` placeholder |
| PageReader.HeadReadsBack | csv_to_meets_html.py:57-89 | the head reads back as the title (meet name plus ` Results`), the heading (meet name) and the fixed summary |
| PageReader.IndividualReadsBack | csv_to_meets_html.py:105-132 | the individual results section reads back as one card per runner followed by the page's end |
| PageReader.PageReadsBack | csv_to_meets_html.py:57-132 | a page assembled from head, table and cards reads back part by part |
| PageReader.MeetPageReadsBack | csv_to_meets_html.py:50-132 | a rendered page reads back as: title = meet name + ` Results`, heading = meet name, the summary with `{meet_name}` unsubstituted, the header row and data rows verbatim, and one card per data row in order with `../images/profiles/` + name with `_` for spaces + `.jpg` and the raw fields |
| PageReader.MarkupInCellsIsAmbiguous | csv_to_meets_html.py:93 | a header cell containing `</th><th>` renders exactly like two header cells |
| Generator.RenderRecord | csv_to_meets_html.py:143-145 | a missing source file fails as unreadable; otherwise the page is written to the record's output path with the meet rendered under the record's meet name, or the rendering error is raised |
| Generator.WritePages | csv_to_meets_html.py:140-145 | pages are written in record order, one per record until the first failure, which ends the loop and is reported |
| Generator.GenerateAllMeets | csv_to_meets_html.py:134-148 | the run completes exactly when every `.csv` entry renders, with one page per entry in listing order; otherwise it stops at the first failing entry, keeping the pages written before it |
| Generator.NewEntries | csv_to_meets_html.py:145-148 | the entries the run adds to the folder are page names of `.csv` entries that were not listed before, each named once; `Generator.NewEntriesComplete` states that every such name is added |
| Generator.NewEntriesComplete | csv_to_meets_html.py:141-145 | every page name of a `.csv` entry that was not listed before is among the added entries, so the added entries are exactly those page names |
| Generator.Relisting | csv_to_meets_html.py:11 | the folder as the index pass lists it: the first listing, then exactly the page names of `.csv` entries that were not listed before, each once; `Generator.RelistingKeepsIndex` states that it gives the same index |
| Generator.NewEntriesAddNoLinks | csv_to_meets_html.py:11-12 | the page files the run adds end in `.html`, so they add no link |
| Generator.RelistingKeepsIndex | csv_to_meets_html.py:147-148 | listing the folder again after the pages are written gives the index of the first listing |
| Generator.CompletedIndex | csv_to_meets_html.py:147-148 | a completed run writes `index.html` with the index of the listing |
| Generator.IndexAgreesWithPages | csv_to_meets_html.py:142-145 | in a completed run the index has one link per written page, in order; each link target is the page's path, and its text is the page's heading and, followed by ` Results`, its title |
| Generator.PageOfReadableRows | csv_to_meets_html.py:63-76 | a page rendered from readable rows shows the meet name as its heading and, followed by ` Results`, as its title |

## Left out

- File I/O is not modelled: opening, writing, `os.path.exists` and `os.makedirs`. A missing meets folder is created empty. That is the same as running the model on an empty listing.
- The file system is a parameter. The folder's listing is a sequence, and each readable CSV file is a map entry from its path to its parsed rows. A path missing from the map stands for any file that cannot be opened.
- `os.listdir` order is platform-dependent, so the listing is taken as given. The second listing is modelled as the first one followed by the new page files, each once (`Generator.Relisting`). A second listing in another order is not modelled.
- `os.path.join` is modelled as on POSIX (`MeetNames.PathJoin`), where it inserts `/`. On Windows it inserts `\`, so the written page path and the link target (always `meets/…`) differ there; `IndexPage.LinkTargetIsOutputPath` and `Generator.IndexAgreesWithPages` hold on POSIX only.
- The `csv.reader` dialect, quoting and newline handling are not modelled. The rows are given already split into cells.
- `csvfile.seek(0)` and the second `next(reader)` are not modelled. Both passes read the same data rows.
- When the card pass fails, the page file is left partly written. The model records only the error, not the partial file.
- Generator.WritePages: stops at a failing meet and reports the error as a value. The Python exception type is not modelled: `StopIteration` becomes `NoHeaderRow`, the unpacking `ValueError` becomes `UnpackMismatch`, and an `OSError` becomes `SourceUnreadable`.
- PageReader.MeetPageReadsBack: stated only for pages whose cells and meet name contain no `<` and whose runner names contain no `'`. Cells are copied into the markup unescaped, so other pages do not read back unambiguously (`PageReader.MarkupInCellsIsAmbiguous`).
- IndexPage.IndexReadsBack: stated only for listings whose entries contain no `/`, `"` or `<`, for the same reason.
- Generator.IndexAgreesWithPages: stated under the same restrictions on entry names and cells.
- Idempotence across runs is not stated. It follows from every function being pure.
- The `__main__` entry point is not modelled.

=== FILE: generator.dfy ===
/**
 * The whole run: every `.csv` file of the meets folder is rendered to its
 * page, in listing order, and then the index is written from a second
 * listing of the folder. The first file that cannot be read or rendered
 * aborts the run: the pages written before it stay, and no index is
 * written.
 *
 * The file system is a parameter: the folder's listing and the parsed rows
 * of every readable file, by path.
 */
module Generator {
  import opened Results
  import opened MeetNames
  import opened IndexPage
  import opened MeetPage
  import opened PageReader

  /** A file the run writes. */
  datatype Page = Page(path: string, html: string)

  /** How a run ends: with every page and the index written, or at the first failure. */
  datatype Outcome =
    | Completed(pages: seq<Page>, index: Page)
    | Aborted(pages: seq<Page>, error: MeetError)

  /** The outcome of rendering one meet's file, which may be missing from the file system. */
  function RenderRecord(rec: EventRecord, files: map<string, seq<seq<string>>>): (r: Result<Page, MeetError>)
    ensures rec.sourcePath !in files ==> r == Err(SourceUnreadable(rec.sourcePath))
    ensures rec.sourcePath in files ==>
              (r.Ok? <==> CreateMeetHtml(files[rec.sourcePath], rec.displayName).Ok?)
    ensures r.Ok? ==> r.value.path == rec.outputPath
                      && CreateMeetHtml(files[rec.sourcePath], rec.displayName) == Ok(r.value.html)
    ensures rec.sourcePath in files && r.Err? ==> CreateMeetHtml(files[rec.sourcePath], rec.displayName) == Err(r.error)
  {
    if rec.sourcePath !in files then Err(SourceUnreadable(rec.sourcePath))
    else
      match CreateMeetHtml(files[rec.sourcePath], rec.displayName)
      case Err(e) => Err(e)
      case Ok(html) => Ok(Page(rec.outputPath, html))
  }

  /**
   * Renders the records in order and stops at the first one that fails:
   * the pages written so far, one per record before the failure, and the
   * failure, if any.
   */
  function WritePages(records: seq<EventRecord>, files: map<string, seq<seq<string>>>)
    : (r: (seq<Page>, Option<MeetError>))
    ensures |r.0| <= |records|
    ensures r.1.None? <==> |r.0| == |records|
    ensures forall i :: 0 <= i < |r.0| ==> RenderRecord(records[i], files) == Ok(r.0[i])
    ensures r.1.Some? ==> RenderRecord(records[|r.0|], files) == Err(r.1.value)
  {
    if |records| == 0 then ([], None)
    else
      match RenderRecord(records[0], files)
      case Err(e) => ([], Some(e))
      case Ok(page) =>
        var (more, failure) := WritePages(records[1..], files);
        assert forall i :: 0 <= i < |more| ==> records[1..][i] == records[i + 1];
        ([page] + more, failure)
  }

  /**
   * The page names the run adds to the folder that were not listed before,
   * each named once, as a listing names every file once.
   */
  function NewEntries(listing: seq<string>, scanned: seq<string>): (added: seq<string>)
    ensures forall i :: 0 <= i < |added| ==> added[i] !in listing
    ensures forall i :: 0 <= i < |added| ==> exists j :: 0 <= j < |scanned| && IsMeetCsv(scanned[j])
                                                          && added[i] == HtmlFileName(scanned[j])
    ensures forall i, k :: 0 <= i < k < |added| ==> added[i] != added[k]
  {
    if |scanned| == 0 then []
    else
      var more := NewEntries(listing, scanned[1..]);
      assert forall j :: 0 <= j < |scanned| - 1 ==> scanned[1..][j] == scanned[j + 1];
      var html := HtmlFileName(scanned[0]);
      if IsMeetCsv(scanned[0]) && html !in listing && html !in more then
        assert forall k :: 0 < k < |more| + 1 ==> ([html] + more)[k] == more[k - 1];
        [html] + more
      else more
  }

  /** Every page name of a `.csv` entry that was not listed before is among the added names. */
  lemma {:induction false} NewEntriesComplete(listing: seq<string>, scanned: seq<string>)
    ensures forall j :: 0 <= j < |scanned| && IsMeetCsv(scanned[j]) && HtmlFileName(scanned[j]) !in listing ==>
              HtmlFileName(scanned[j]) in NewEntries(listing, scanned)
  {
    if |scanned| > 0 {
      NewEntriesComplete(listing, scanned[1..]);
      assert forall j :: 1 <= j < |scanned| ==> scanned[1..][j - 1] == scanned[j];
    }
  }

  /**
   * The folder as the index pass lists it again after the pages are written:
   * the first listing, then the new page files.
   */
  function Relisting(listing: seq<string>): seq<string> {
    listing + NewEntries(listing, listing)
  }

  /** `generate_all_meets`: all meet pages in listing order, then the index. */
  function GenerateAllMeets(listing: seq<string>, files: map<string, seq<seq<string>>>): (out: Outcome)
    ensures out.Completed? ==>
              forall i :: 0 <= i < |Scan(listing)| ==> RenderRecord(Scan(listing)[i], files).Ok?
    ensures out.Aborted? ==>
              exists i :: 0 <= i < |Scan(listing)| && RenderRecord(Scan(listing)[i], files).Err?
    ensures out.Completed? ==> |out.pages| == |Scan(listing)|
    ensures out.Aborted? ==> |out.pages| < |Scan(listing)|
                             && RenderRecord(Scan(listing)[|out.pages|], files) == Err(out.error)
    ensures forall i :: 0 <= i < |out.pages| ==>
              RenderRecord(Scan(listing)[i], files) == Ok(out.pages[i])
  {
    var records := Scan(listing);
    var (pages, failure) := WritePages(records, files);
    if failure.Some? then
      assert |pages| < |records| && !RenderRecord(records[|pages|], files).Ok?;
      Aborted(pages, failure.value)
    else Completed(pages, Page(IndexPath, IndexHtml(Relisting(listing))))
  }

  /** The page files the run adds are not meets, so they add no link. */
  lemma {:induction false} NewEntriesAddNoLinks(listing: seq<string>, scanned: seq<string>)
    ensures MeetLinks(NewEntries(listing, scanned)) == ""
  {
    var added := NewEntries(listing, scanned);
    forall i | 0 <= i < |added|
      ensures !IsMeetCsv(added[i])
    {
      var j :| 0 <= j < |scanned| && IsMeetCsv(scanned[j]) && added[i] == HtmlFileName(scanned[j]);
    }
    MeetLinksEmpty(added);
  }

  /** Listing the folder again after the pages are written gives the same index. */
  lemma RelistingKeepsIndex(listing: seq<string>)
    ensures IndexHtml(Relisting(listing)) == IndexHtml(listing)
  {
    MeetLinksAppend(listing, NewEntries(listing, listing));
    NewEntriesAddNoLinks(listing, listing);
    assert MeetLinks(listing) + "" == MeetLinks(listing);
  }

  /** A completed run writes exactly the index of the first listing. */
  lemma CompletedIndex(listing: seq<string>, files: map<string, seq<seq<string>>>)
    requires GenerateAllMeets(listing, files).Completed?
    ensures GenerateAllMeets(listing, files).index == Page(IndexPath, IndexHtml(listing))
  {
    RelistingKeepsIndex(listing);
  }

  /** The rows of a meet file can be shown and read back verbatim. */
  predicate ReadableRows(rows: seq<seq<string>>) {
    TagFreeRows(rows) && forall i :: 1 <= i < |rows| && |rows[i]| > 0 ==> '\'' !in rows[i][0]
  }

  /**
   * The index and the pages agree. When the run completes and names and
   * cells carry no markup, the index lists one link per written page, in
   * the order they were written: the link's target is the page's path, and
   * its text is the meet name the page shows as its heading and, followed
   * by " Results", as its title.
   */
  lemma IndexAgreesWithPages(listing: seq<string>, files: map<string, seq<seq<string>>>)
    requires forall i :: 0 <= i < |listing| ==>
               IsEntryName(listing[i]) && '"' !in listing[i] && '<' !in listing[i]
    requires forall p :: p in files ==> ReadableRows(files[p])
    requires GenerateAllMeets(listing, files).Completed?
    ensures var out := GenerateAllMeets(listing, files);
            var links := ReadIndex(out.index.html);
            && links.Some?
            && |links.value| == |out.pages|
            && forall i :: 0 <= i < |out.pages| ==>
                 var page := ReadMeetPage(out.pages[i].html);
                 && links.value[i].href == out.pages[i].path
                 && page.Some?
                 && page.value.heading == links.value[i].text
                 && page.value.title == links.value[i].text + " Results"
  {
    var out := GenerateAllMeets(listing, files);
    var records := Scan(listing);
    CompletedIndex(listing, files);
    IndexReadsBack(listing);
    var links := LinksTo(records);
    LinksToPointwise(records);
    ScanComesFromListing(listing);
    forall i | 0 <= i < |out.pages|
      ensures var page := ReadMeetPage(out.pages[i].html);
              && links[i].href == out.pages[i].path
              && page.Some?
              && page.value.heading == links[i].text
              && page.value.title == links[i].text + " Results"
    {
      var rec := records[i];
      assert rec in records;
      var j :| 0 <= j < |listing| && IsMeetCsv(listing[j]) && rec == RecordFor(listing[j]);
      LinkFieldsClean(listing[j]);
      assert RenderRecord(rec, files).Ok?;
      var rows := files[rec.sourcePath];
      PageOfReadableRows(rows, rec.displayName);
    }
  }

  /** A meet page rendered from readable rows shows the meet name as its heading and title. */
  lemma PageOfReadableRows(rows: seq<seq<string>>, meetName: string)
    requires ReadableRows(rows) && TagFree(meetName)
    requires CreateMeetHtml(rows, meetName).Ok?
    ensures var page := ReadMeetPage(CreateMeetHtml(rows, meetName).value);
            page.Some? && page.value.heading == meetName && page.value.title == meetName + " Results"
  {
    MeetPageReadsBack(rows, meetName);
  }

  /** The links to a sequence of records, one by one. */
  lemma {:induction false} LinksToPointwise(records: seq<EventRecord>)
    ensures |LinksTo(records)| == |records|
    ensures forall i :: 0 <= i < |records| ==>
              LinksTo(records)[i] == Link(records[i].outputPath, records[i].displayName)
  {
    if |records| > 0 {
      LinksToPointwise(records[1..]);
      assert forall i :: 1 <= i < |records| ==> records[1..][i - 1] == records[i];
    }
  }
}

=== FILE: index_page.dfy ===
/**
 * The top-level index page: a fixed document whose navigation list holds
 * one `<li>` link per meet CSV file of the listing, in listing order, built
 * by appending one line per file as the listing is walked. A reader of the
 * rendered list recovers, link by link, the page each link points at and
 * the text it shows.
 */
module IndexPage {
  import opened Results
  import opened Text
  import opened MeetNames

  /** Where the index page is written. */
  const IndexPath: string := "index.html"

  const IndexHead: string :=
    "<!DOCTYPE html>\n"
    + "<html lang='en'>\n"
    + "<head>\n"
    + "<meta charset='UTF-8'>\n"
    + "<meta name='viewport' content='width=device-width, initial-scale=1.0'>\n"
    + "<title>Skyline High School Cross Country Meet Results</title>\n"
    + "<link rel='stylesheet' href='css/reset.css'>\n"
    + "<link rel='stylesheet' href='css/style.css'>\n"
    + "<link rel='stylesheet' href='css/homepage.css'>\n"
    + "</head>\n"
    + "<body>\n"
    + "<a class='skip-link' href='#main-content'>Skip to Main Content</a>\n"
    + "<header>\n"
    + "<h1>Skyline High School Cross Country Meet Results</h1>\n"
    + "</header>\n"
    + "<nav>\n"
    + "<ul>\n"

  /** The end of the document; its first line closes the list. */
  const IndexFoot: string := "</ul>\n" + IndexFooter

  const IndexFooter: string :=
    "</nav>\n"
    + "<footer>\n"
    + "<p>&copy; 2024 Skyline High School Cross Country</p>\n"
    + "</footer>\n"
    + "</body>\n"
    + "</html>"

  const LinkOpen: string := "<li><a href=\""
  const LinkMid: string := "\">"
  const LinkClose: string := "</a></li>\n"

  /** The link target: the page's name under the meets folder. */
  function LinkHref(filename: string): string {
    MeetsFolder + "/" + HtmlFileName(filename)
  }

  /** The list line for one `.csv` file. */
  function MeetLink(filename: string): string {
    LinkOpen + LinkHref(filename) + LinkMid + DisplayName(filename) + LinkClose
  }

  /** The line an entry contributes: its link if it is a `.csv` file, nothing otherwise. */
  function EntryLink(filename: string): string {
    if IsMeetCsv(filename) then MeetLink(filename) else ""
  }

  /** The list body: the lines of the entries, concatenated in listing order. */
  function MeetLinks(listing: seq<string>): string {
    if |listing| == 0 then "" else EntryLink(listing[0]) + MeetLinks(listing[1..])
  }

  /** The list is empty exactly when the listing holds no `.csv` entry. */
  lemma {:induction false} MeetLinksEmpty(listing: seq<string>)
    ensures MeetLinks(listing) == [] <==> forall i :: 0 <= i < |listing| ==> !IsMeetCsv(listing[i])
  {
    if |listing| > 0 {
      var more := listing[1..];
      MeetLinksEmpty(more);
      assert forall i :: 1 <= i < |listing| ==> more[i - 1] == listing[i];
      if IsMeetCsv(listing[0]) {
        assert |MeetLink(listing[0])| >= |LinkOpen| > 0;
      }
    }
  }

  /** The whole index document. */
  function IndexHtml(listing: seq<string>): string {
    IndexHead + MeetLinks(listing) + IndexFoot
  }

  /** What a link of the list carries: its target and its text. */
  datatype Link = Link(href: string, text: string)

  /** The links an index should show for a sequence of meet records. */
  function LinksTo(records: seq<EventRecord>): seq<Link> {
    if |records| == 0 then []
    else [Link(records[0].outputPath, records[0].displayName)] + LinksTo(records[1..])
  }

  /**
   * Reads consecutive list lines off the front of `s`: the target up to the
   * closing quote, the text up to the next tag. Stops at the first text that
   * is not a list line and returns it.
   */
  function ReadLinks(s: string): (r: (seq<Link>, string))
    ensures |r.1| <= |s|
    decreases |s|
  {
    if !StartsWith(s, LinkOpen) then ([], s)
    else
      var (href, r1) := TakeUntil(s[|LinkOpen|..], '"');
      if !StartsWith(r1, LinkMid) then ([], s)
      else
        var (text, r2) := TakeUntil(r1[|LinkMid|..], '<');
        if !StartsWith(r2, LinkClose) then ([], s)
        else
          var (more, rest) := ReadLinks(r2[|LinkClose|..]);
          ([Link(href, text)] + more, rest)
  }

  /** Reads an index document back into its links, if it has the index's shape. */
  function ReadIndex(doc: string): Option<seq<Link>> {
    if !StartsWith(doc, IndexHead) then None
    else
      var (links, rest) := ReadLinks(doc[|IndexHead|..]);
      if rest == IndexFoot then Some(links) else None
  }

  /** Appending the listings appends their link lists. */
  lemma {:induction false} MeetLinksAppend(a: seq<string>, b: seq<string>)
    ensures MeetLinks(a + b) == MeetLinks(a) + MeetLinks(b)
    decreases |a|
  {
    if |a| == 0 {
      assert a + b == b;
    } else {
      assert (a + b)[0] == a[0];
      assert (a + b)[1..] == a[1..] + b;
      MeetLinksAppend(a[1..], b);
      Regroup(EntryLink(a[0]), MeetLinks(a[1..]), MeetLinks(b));
    }
  }

  /**
   * A single entry contributes its own line if it is a `.csv` file and
   * nothing otherwise; with `MeetLinksAppend` this fixes the list of any
   * listing.
   */
  lemma MeetLinksOfEntry(f: string)
    ensures MeetLinks([f])
            == if IsMeetCsv(f) then "<li><a href=\"meets/" + HtmlFileName(f) + "\">" + DisplayName(f) + "</a></li>\n"
               else ""
  {
    assert [f][1..] == [];
    var html := HtmlFileName(f);
    Regroup(LinkOpen, MeetsFolder + "/", html);
    assert LinkOpen + (MeetsFolder + "/") == "<li><a href=\"meets/";
  }

  /** One list line is read back into its target and text. */
  lemma ReadOneLink(href: string, text: string, t: string)
    requires '"' !in href && '<' !in text
    ensures ReadLinks(LinkOpen + href + LinkMid + text + LinkClose + t)
            == ([Link(href, text)] + ReadLinks(t).0, ReadLinks(t).1)
  {
    var r2 := LinkClose + t;
    var r1 := LinkMid + (text + r2);
    var s := LinkOpen + (href + r1);
    assert LinkOpen + href + LinkMid + text + LinkClose + t == s;
    ConcatSplits(LinkOpen, href + r1);
    TakeUntilField(href, '"', r1);
    ConcatSplits(LinkMid, text + r2);
    TakeUntilField(text, '<', r2);
    ConcatSplits(LinkClose, t);
  }

  /**
   * The link target of an entry is exactly the path its page is written
   * to: joining the folder and the page name inserts the same `/`.
   */
  lemma LinkTargetIsOutputPath(f: string)
    requires IsEntryName(f)
    ensures LinkHref(f) == RecordFor(f).outputPath
  {
    var html := HtmlFileName(f);
    assert '/' !in html;
    assert MeetsFolder + "/" + html == PathJoin(MeetsFolder, html);
  }

  /** A name free of `"` and `<` gives a link target and text free of them too. */
  lemma LinkFieldsClean(f: string)
    requires IsEntryName(f) && '"' !in f && '<' !in f
    ensures '"' !in LinkHref(f) && '<' !in DisplayName(f)
    ensures '<' !in LinkHref(f) && '"' !in DisplayName(f)
    ensures LinkHref(f) == RecordFor(f).outputPath
  {
    var html := HtmlFileName(f);
    assert '"' !in html;
    LinkTargetIsOutputPath(f);
    assert forall c :: c in MeetsFolder + "/" + html ==> c in MeetsFolder + "/" || c in html;
  }

  /** The list lines for a sequence of records: each links its output path under its meet name. */
  function RecordLinks(records: seq<EventRecord>): string {
    if |records| == 0 then ""
    else LinkOpen + records[0].outputPath + LinkMid + records[0].displayName + LinkClose
         + RecordLinks(records[1..])
  }

  /**
   * Whatever the names hold, the list has one line per scanned record, in
   * order, linking the path the record's page is written to under the
   * record's meet name.
   */
  lemma {:induction false} MeetLinksOfScan(listing: seq<string>)
    requires forall i :: 0 <= i < |listing| ==> IsEntryName(listing[i])
    ensures MeetLinks(listing) == RecordLinks(Scan(listing))
    decreases |listing|
  {
    if |listing| > 0 {
      var f := listing[0];
      var more := listing[1..];
      assert forall i :: 0 <= i < |more| ==> more[i] == listing[i + 1];
      MeetLinksOfScan(more);
      if IsMeetCsv(f) {
        LinkTargetIsOutputPath(f);
        var recs := Scan(listing);
        assert recs == [RecordFor(f)] + Scan(more);
        assert recs[0] == RecordFor(f) && recs[1..] == Scan(more);
      }
    }
  }

  /** The rendered list reads back as the links to the scanned records, in order. */
  lemma {:induction false} MeetLinksReadBack(listing: seq<string>, tail: string)
    requires forall i :: 0 <= i < |listing| ==>
               IsEntryName(listing[i]) && '"' !in listing[i] && '<' !in listing[i]
    requires !StartsWith(tail, LinkOpen)
    ensures ReadLinks(MeetLinks(listing) + tail) == (LinksTo(Scan(listing)), tail)
    decreases |listing|
  {
    if |listing| == 0 {
      assert MeetLinks(listing) + tail == tail;
    } else {
      var more := listing[1..];
      assert forall i :: 0 <= i < |more| ==> more[i] == listing[i + 1];
      MeetLinksReadBack(more, tail);
      if IsMeetCsv(listing[0]) {
        CsvLinkReadBack(listing, tail);
      } else {
        assert MeetLinks(listing) == MeetLinks(more);
      }
    }
  }

  /** The step of `MeetLinksReadBack` for a listing that starts with a `.csv` entry. */
  lemma CsvLinkReadBack(listing: seq<string>, tail: string)
    requires |listing| > 0 && IsMeetCsv(listing[0])
    requires IsEntryName(listing[0]) && '"' !in listing[0] && '<' !in listing[0]
    requires ReadLinks(MeetLinks(listing[1..]) + tail) == (LinksTo(Scan(listing[1..])), tail)
    ensures ReadLinks(MeetLinks(listing) + tail) == (LinksTo(Scan(listing)), tail)
  {
    var f := listing[0];
    var more := listing[1..];
    LinkFieldsClean(f);
    var t := MeetLinks(more) + tail;
    var line := MeetLink(f);
    assert MeetLinks(listing) == line + MeetLinks(more);
    Regroup(line, MeetLinks(more), tail);
    ReadOneLink(LinkHref(f), DisplayName(f), t);
    assert Scan(listing) == [RecordFor(f)] + Scan(more);
    assert LinksTo(Scan(listing)) == [Link(RecordFor(f).outputPath, DisplayName(f))] + LinksTo(Scan(more)) by {
      assert Scan(listing)[1..] == Scan(more);
    }
  }

  lemma FootIsNotALink()
    ensures !StartsWith(IndexFoot, LinkOpen)
  {
    assert IndexFoot[1] != LinkOpen[1];
  }

  /**
   * The index and the pages agree: reading the index back gives, for each
   * `.csv` entry in listing order, a link whose target is exactly the path
   * the page is written to and whose text is the meet name given to it.
   */
  lemma IndexReadsBack(listing: seq<string>)
    requires forall i :: 0 <= i < |listing| ==>
               IsEntryName(listing[i]) && '"' !in listing[i] && '<' !in listing[i]
    ensures ReadIndex(IndexHtml(listing)) == Some(LinksTo(Scan(listing)))
  {
    var links := MeetLinks(listing);
    FootIsNotALink();
    MeetLinksReadBack(listing, IndexFoot);
    Regroup(IndexHead, links, IndexFoot);
    ConcatSplits(IndexHead, links + IndexFoot);
  }
}

=== FILE: meet_names.dfy ===
/**
 * How a file found in the meets folder is named on the site: the
 * human-readable meet name, the page file written next to it, the profile
 * image a runner's card points at, and the `(source, output, name)` record
 * that the page generator derives for each CSV file.
 */
module MeetNames {
  import opened Text

  /** The folder that is scanned for CSV files and receives the meet pages. */
  const MeetsFolder: string := "meets"
  const CsvExt: string := ".csv"
  const HtmlExt: string := ".html"

  /** A name as a directory listing returns it: never containing a path separator. */
  predicate IsEntryName(f: string) {
    '/' !in f
  }

  /** A name in which `.csv` occurs nowhere, so neither name derivation changes it at an extension. */
  predicate CsvFree(s: string) {
    forall i :: 0 <= i < |s| ==> !StartsWith(s[i..], CsvExt)
  }

  /** The listing filter: only names ending in `.csv` are meets. */
  predicate IsMeetCsv(f: string) {
    EndsWith(f, CsvExt)
  }

  lemma CsvExtNoSelfOverlap()
    ensures NoSelfOverlap(CsvExt)
  {
    forall k | 0 < k < |CsvExt|
      ensures CsvExt[k..] != CsvExt[..|CsvExt| - k]
    {
      assert CsvExt[k..][0] != '.' == CsvExt[..|CsvExt| - k][0];
    }
  }

  /**
   * The meet name shown in the index and on the page: every `_` becomes a
   * space, then every `.csv` is deleted, wherever it occurs in the name.
   */
  function DisplayName(filename: string): (name: string)
    ensures '_' !in name
    ensures forall c :: c in name ==> c in filename || c == ' '
  {
    var spaced := ReplaceAll(filename, "_", " ");
    ReplaceCharPointwise(filename, '_', ' ');
    assert forall i :: 0 <= i < |spaced| ==> spaced[i] != '_';
    assert forall i :: 0 <= i < |spaced| ==> spaced[i] == filename[i] || spaced[i] == ' ';
    ReplaceAllChars(spaced, CsvExt, "");
    ReplaceAll(spaced, CsvExt, "")
  }

  /** The page written for a CSV file: every `.csv` in its name becomes `.html`. */
  function HtmlFileName(filename: string): (html: string)
    ensures forall c :: c in html ==> c in filename || c in HtmlExt
    ensures IsMeetCsv(filename) ==> EndsWith(html, HtmlExt) && !IsMeetCsv(html)
  {
    var html := ReplaceAll(filename, CsvExt, HtmlExt);
    ReplaceAllChars(filename, CsvExt, HtmlExt);
    if IsMeetCsv(filename) then
      var stem := filename[..|filename| - |CsvExt|];
      assert stem + CsvExt + "" == filename;
      CsvExtNoSelfOverlap();
      ReplaceAllAtOccurrence(stem, CsvExt, "", HtmlExt);
      html
    else
      html
  }

  /** The file name of a runner's profile picture: spaces become `_`. */
  function ImageName(runner: string): (img: string)
    ensures |img| == |runner|
    ensures forall i :: 0 <= i < |runner| ==>
              img[i] == if runner[i] == ' ' then '_' else runner[i]
    ensures ' ' !in img
  {
    ReplaceCharPointwise(runner, ' ', '_');
    var img := ReplaceAll(runner, " ", "_");
    assert forall i :: 0 <= i < |img| ==> img[i] != ' ';
    img
  }

  /** The image path a card embeds, relative to the meet page. */
  function ProfileImagePath(runner: string): string {
    "../images/profiles/" + ImageName(runner) + ".jpg"
  }

  /** `os.path.join(dir, name)` for two components, as on POSIX, where the separator is `/`. */
  function PathJoin(dir: string, name: string): string {
    if |name| > 0 && name[0] == '/' then name
    else if |dir| == 0 || dir[|dir| - 1] == '/' then dir + name
    else dir + "/" + name
  }

  /** One CSV file found in the meets folder, as the generator uses it. */
  datatype EventRecord = EventRecord(sourcePath: string, outputPath: string, displayName: string)

  function RecordFor(filename: string): EventRecord {
    EventRecord(PathJoin(MeetsFolder, filename),
                PathJoin(MeetsFolder, HtmlFileName(filename)),
                DisplayName(filename))
  }

  /**
   * The generator's pass over the listing: one record per `.csv` entry, in
   * listing order; every other entry is skipped.
   */
  function Scan(listing: seq<string>): (records: seq<EventRecord>)
    ensures |records| <= |listing|
  {
    if |listing| == 0 then []
    else
      var rest := Scan(listing[1..]);
      if IsMeetCsv(listing[0]) then [RecordFor(listing[0])] + rest else rest
  }

  /** The scan of a concatenated listing is the scan of its halves, in order. */
  lemma {:induction false} ScanAppend(a: seq<string>, b: seq<string>)
    ensures Scan(a + b) == Scan(a) + Scan(b)
    decreases |a|
  {
    if |a| == 0 {
      assert a + b == b;
    } else {
      assert (a + b)[0] == a[0];
      assert (a + b)[1..] == a[1..] + b;
      ScanAppend(a[1..], b);
    }
  }

  /** One entry gives its record exactly when it is a `.csv` file. */
  lemma ScanOfEntry(f: string)
    ensures Scan([f]) == if IsMeetCsv(f) then [RecordFor(f)] else []
  {
    assert [f][1..] == [];
  }

  /** Every `.csv` entry of the listing has its record. */
  lemma {:induction false} ScanCoversListing(listing: seq<string>)
    ensures forall i :: 0 <= i < |listing| && IsMeetCsv(listing[i]) ==> RecordFor(listing[i]) in Scan(listing)
  {
    if |listing| > 0 {
      var more := listing[1..];
      ScanCoversListing(more);
      var rest := Scan(more);
      assert forall i :: 1 <= i < |listing| ==> listing[i] == more[i - 1];
      assert forall e :: e in rest ==> e in Scan(listing);
    }
  }

  /** Every record comes from a `.csv` entry of the listing. */
  lemma {:induction false} ScanComesFromListing(listing: seq<string>)
    ensures forall e :: e in Scan(listing) ==>
              exists i :: 0 <= i < |listing| && IsMeetCsv(listing[i]) && e == RecordFor(listing[i])
  {
    if |listing| > 0 {
      var more := listing[1..];
      ScanComesFromListing(more);
      forall e | e in Scan(listing)
        ensures exists i :: 0 <= i < |listing| && IsMeetCsv(listing[i]) && e == RecordFor(listing[i])
      {
        if e in Scan(more) {
          var j :| 0 <= j < |more| && IsMeetCsv(more[j]) && e == RecordFor(more[j]);
          assert listing[j + 1] == more[j];
        } else {
          assert IsMeetCsv(listing[0]) && e == RecordFor(listing[0]);
        }
      }
    }
  }

  /** Replacing `_` by a space commutes with splitting the name. */
  lemma SpacedConcat(x: string, y: string)
    ensures ReplaceAll(x + y, "_", " ") == ReplaceAll(x, "_", " ") + ReplaceAll(y, "_", " ")
  {
    ReplaceCharPointwise(x, '_', ' ');
    ReplaceCharPointwise(y, '_', ' ');
    ReplaceCharPointwise(x + y, '_', ' ');
  }

  /** Every `.csv` in a file name, wherever it is, is deleted from the display name. */
  lemma DisplayNameAtExtension(x: string, y: string)
    ensures DisplayName(x + CsvExt + y) == DisplayName(x) + DisplayName(y)
  {
    var sx := ReplaceAll(x, "_", " ");
    var sy := ReplaceAll(y, "_", " ");
    SpacedConcat(x + CsvExt, y);
    SpacedConcat(x, CsvExt);
    ReplaceCharPointwise(CsvExt, '_', ' ');
    assert ReplaceAll(CsvExt, "_", " ") == CsvExt;
    assert ReplaceAll(x + CsvExt + y, "_", " ") == sx + CsvExt + sy;
    CsvExtNoSelfOverlap();
    ReplaceAllAtOccurrence(sx, CsvExt, sy, "");
  }

  /** The display name ignores a final `.csv`: only the stem shows. */
  lemma DisplayNameStripsExtension(stem: string)
    ensures DisplayName(stem + CsvExt) == DisplayName(stem)
  {
    DisplayNameAtExtension(stem, "");
    assert stem + CsvExt + "" == stem + CsvExt;
  }

  /**
   * For a stem in which `.csv` does not occur, the display name of
   * `stem.csv` is the stem with every `_` read as a space.
   */
  lemma DisplayNameOfPlainStem(stem: string)
    requires CsvFree(stem)
    ensures |DisplayName(stem + CsvExt)| == |stem|
    ensures forall i :: 0 <= i < |stem| ==>
              DisplayName(stem + CsvExt)[i] == if stem[i] == '_' then ' ' else stem[i]
  {
    DisplayNameStripsExtension(stem);
    var spaced := ReplaceAll(stem, "_", " ");
    ReplaceCharPointwise(stem, '_', ' ');
    forall i | 0 <= i < |spaced|
      ensures !StartsWith(spaced[i..], CsvExt)
    {
      if i + |CsvExt| <= |spaced| {
        assert stem[i..][..|CsvExt|] != CsvExt;
        var k :| 0 <= k < |CsvExt| && stem[i..][..|CsvExt|][k] != CsvExt[k];
        assert spaced[i..][..|CsvExt|][k] == spaced[i + k];
      }
    }
    ReplaceAllWithoutOccurrence(spaced, CsvExt, "");
  }

  /** Every `.csv` in a file name, wherever it is, becomes `.html` in the page name. */
  lemma HtmlNameAtExtension(x: string, y: string)
    ensures HtmlFileName(x + CsvExt + y) == HtmlFileName(x) + HtmlExt + HtmlFileName(y)
  {
    CsvExtNoSelfOverlap();
    ReplaceAllAtOccurrence(x, CsvExt, y, HtmlExt);
  }

  /** The page of a CSV file is its stem with `.html` appended. */
  lemma HtmlNameOfCsv(stem: string)
    ensures HtmlFileName(stem + CsvExt) == HtmlFileName(stem) + HtmlExt
  {
    CsvExtNoSelfOverlap();
    ReplaceAllAtOccurrence(stem, CsvExt, "", HtmlExt);
    assert stem + CsvExt + "" == stem + CsvExt;
  }

  /**
   * Two different CSV files can be given the same page, so the second one
   * written overwrites the first: `x.csv.csv` and `x.html.csv` both become
   * `x.html.html`.
   */
  lemma DistinctSourcesCanShareAPage(x: string)
    requires CsvFree(x)
    ensures x + ".csv.csv" != x + ".html.csv"
    ensures IsMeetCsv(x + ".csv.csv") && IsMeetCsv(x + ".html.csv")
    ensures HtmlFileName(x + ".csv.csv") == HtmlFileName(x + ".html.csv")
  {
    assert (x + ".csv.csv")[|x| + 1] != (x + ".html.csv")[|x| + 1];
    assert x + ".csv.csv" == (x + CsvExt) + CsvExt;
    assert x + ".html.csv" == (x + HtmlExt) + CsvExt;
    HtmlNameOfCsv(x + CsvExt);
    HtmlNameOfCsv(x);
    HtmlNameOfCsv(x + HtmlExt);
    HtmlNameOfCsvFree(x);
  }

  /**
   * A stem in which `.csv` does not occur is its own page name, and so is
   * the stem followed by `.html`.
   */
  lemma HtmlNameOfCsvFree(x: string)
    requires CsvFree(x)
    ensures HtmlFileName(x) == x
    ensures HtmlFileName(x + HtmlExt) == x + HtmlExt
  {
    ReplaceAllWithoutOccurrence(x, CsvExt, HtmlExt);
    HtmlExtAddsNoCsv(x);
    ReplaceAllWithoutOccurrence(x + HtmlExt, CsvExt, HtmlExt);
  }

  /** Appending `.html` to a name without `.csv` creates no `.csv`. */
  lemma HtmlExtAddsNoCsv(x: string)
    requires CsvFree(x)
    ensures CsvFree(x + HtmlExt)
  {
    var h := x + HtmlExt;
    forall i | 0 <= i < |h|
      ensures !StartsWith(h[i..], CsvExt)
    {
      if i + |CsvExt| <= |x| {
        assert x[i..][..|CsvExt|] == h[i..][..|CsvExt|];
      } else if i < |x| {
        assert h[i..][|x| - i] == '.';
      } else if i == |x| {
        assert h[i..][1] == 'h';
      } else {
        assert h[i..][0] == HtmlExt[i - |x|];
      }
    }
  }

  /** Two different runners can be given the same profile picture. */
  lemma RunnersCanShareAPicture(first: string, last: string)
    ensures first + " " + last != first + "_" + last
    ensures ImageName(first + " " + last) == ImageName(first + "_" + last)
  {
    assert (first + " " + last)[|first|] != (first + "_" + last)[|first|];
    var a := ImageName(first + " " + last);
    var b := ImageName(first + "_" + last);
    assert forall i :: 0 <= i < |a| ==> a[i] == b[i];
  }
}

=== FILE: meet_page.dfy ===
/**
 * The results page of one meet, rendered from the rows of its CSV file.
 *
 * The first row is the header. The page has a fixed head whose title and
 * heading carry the meet name, a summary paragraph, a team table, and one
 * runner card per data row. The team table accepts rows of any width and
 * copies every cell verbatim, without escaping. The card pass unpacks each
 * row into exactly four fields (name, place, time, grade); a row of any
 * other width aborts the page.
 */
module MeetPage {
  import opened Results
  import opened MeetNames

  /** Why rendering a meet (or the whole site) aborts. */
  datatype MeetError =
    | NoHeaderRow                   // the CSV file has no row to take the header from
    | UnpackMismatch(cells: nat)    // a data row does not unpack into four fields
    | SourceUnreadable(path: string) // the CSV file cannot be opened

  /** One data row as the card pass unpacks it. */
  datatype Runner = Runner(name: string, place: string, time: string, grade: string)

  /** The row a runner was unpacked from. */
  function RowOf(r: Runner): seq<string> {
    [r.name, r.place, r.time, r.grade]
  }

  /**
   * `name, place, time, grade = row`: succeeds exactly on four-cell rows,
   * and then gives back the cells in order.
   */
  function Unpack(row: seq<string>): (r: Result<Runner, MeetError>)
    ensures r.Ok? <==> |row| == 4
    ensures r.Ok? ==> RowOf(r.value) == row
    ensures r.Err? ==> r.error == UnpackMismatch(|row|)
  {
    if |row| == 4 then Ok(Runner(row[0], row[1], row[2], row[3]))
    else Err(UnpackMismatch(|row|))
  }

  /**
   * The card pass over the data rows: every row unpacks, or the pass stops
   * at the first row that does not, with that row's width.
   */
  function Runners(rows: seq<seq<string>>): (r: Result<seq<Runner>, MeetError>)
    ensures r.Ok? <==> forall i :: 0 <= i < |rows| ==> |rows[i]| == 4
    ensures r.Ok? ==> |r.value| == |rows| && forall i :: 0 <= i < |rows| ==> RowOf(r.value[i]) == rows[i]
    ensures r.Err? ==> exists i :: 0 <= i < |rows| && |rows[i]| != 4 && r.error == UnpackMismatch(|rows[i]|)
                                  && forall j :: 0 <= j < i ==> |rows[j]| == 4
  {
    if |rows| == 0 then Ok([])
    else
      match Unpack(rows[0])
      case Err(e) => Err(e)
      case Ok(first) =>
        match Runners(rows[1..])
        case Err(e) =>
          assert forall i :: 1 <= i < |rows| ==> rows[1..][i - 1] == rows[i];
          Err(e)
        case Ok(more) =>
          assert forall i :: 1 <= i < |rows| ==> rows[1..][i - 1] == rows[i];
          Ok([first] + more)
  }

  // The fixed text of the page, split where the meet name and the rows go.
  // Where a reader needs to know how a piece starts, its first line is a
  // separate literal.

  const DocStart: string :=
    "<!DOCTYPE html>\n"
    + "<html lang='en'>\n"
    + "<head>\n"
    + "<meta charset='UTF-8'>\n"
    + "<meta name='viewport' content='width=device-width, initial-scale=1.0'>\n"
    + "<title>"

  const TitleSuffix: string := " Results"

  const NavBlock: string := "</title>\n" + NavLinks

  const NavLinks: string :=
    "<link rel='stylesheet' href='../css/reset.css'>\n"
    + "<link rel='stylesheet' href='../css/style.css'>\n"
    + "</head>\n"
    + "<body>\n"
    + "<header>\n"
    + "<nav>\n"
    + "<a href='../index.html' class='button'>Home Page</a>\n"
    + "<a href='#summary' class='button'>Summary</a>\n"
    + "<a href='#team-results' class='button'>Team Results</a>\n"
    + "<a href='#individual-results' class='button'>Individual Results</a>\n"
    + "<a href='#gallery' class='button'>Gallery</a>\n"
    + "</nav>\n"
    + "<h1>"

  const HeadingEnd: string := "</h1>\n" + SummaryStart

  const SummaryStart: string :=
    "<p>Thu Aug 29 2024</p>\n"
    + "</header>\n"
    + "<main>\n"
    + "<section id='summary'>\n"
    + "<h2 class='section-title'>Race Summary</h2>\n"
    + "<p>"

  /**
   * The summary prose. It is a plain literal, not an interpolated one, so the
   * placeholder `{meet_name}` is printed as is, whatever the meet.
   */
  const SummaryText: string := SummaryLead + Placeholder + SummaryTail
  // The prose is cut into short literals so that a proof looking for a `<`
  // in it can inspect each piece cheaply; the pieces join to the source's line.
  const SummaryLead: string := "The Skyline team " + "performed admirably " + "at the "
  const Placeholder: string := "{meet_name}"
  const SummaryTail: string := ". Additional " + "race summary " + "content can go here."

  const SummaryEnd: string := "</p>\n" + TableStart

  const TableStart: string :=
    "</section>\n"
    + "<section id='team-results'>\n"
    + "<h2 class='section-title'>Team Results</h2>\n"
    + "<table>\n"
    + "<thead>\n"
    + "<tr>\n"

  const ThOpen: string := "<th>"
  const ThClose: string := "</th>"
  const TdOpen: string := "<td>"
  const TdClose: string := "</td>"
  const RowOpen: string := "<tr>\n"
  const RowClose: string := "</tr>\n"
  const HeadRowEnd: string := "</tr>\n</thead>\n<tbody>\n"
  const TableEnd: string := "</tbody>\n</table>\n</section>\n"

  const IndividualStart: string :=
    "<section id='individual-results'>\n"
    + "<h2 class='section-title'>Individual Results</h2>\n"
    + "<div class='individual-results'>\n"

  const CardStart: string := "<div class='individual-result'>\n<img src='"
  const AltAttr: string := "' alt='"
  const NameLabel: string := "'>\n<div>\n<p><strong>Name:</strong> "
  const PlaceLabel: string := "</p>\n<p><strong>Place:</strong> "
  const TimeLabel: string := "</p>\n<p><strong>Time:</strong> "
  const GradeLabel: string := "</p>\n<p><strong>Grade:</strong> "
  const CardEnd: string := "</p>\n</div>\n</div>\n"

  const PageEnd: string := "</div>\n" + Footer

  const Footer: string :=
    "</section>\n"
    + "</main>\n"
    + "<footer>\n"
    + "<p>&copy; 2024 Skyline High School Cross Country</p>\n"
    + "</footer>\n"
    + "</body>\n"
    + "</html>"

  /** Everything up to the first header cell; the meet name is in the title and the heading. */
  function Head(meetName: string): string {
    DocStart + meetName + TitleSuffix + NavBlock + meetName + HeadingEnd + SummaryText + SummaryEnd
  }

  /** Each cell wrapped in `open`/`close`, in order, copied verbatim. */
  function Cells(open: string, close: string, cells: seq<string>): string {
    if |cells| == 0 then ""
    else open + cells[0] + close + Cells(open, close, cells[1..])
  }

  /** One table row per data row, whatever its width. */
  function DataRows(rows: seq<seq<string>>): string {
    if |rows| == 0 then ""
    else RowOpen + Cells(TdOpen, TdClose, rows[0]) + RowClose + DataRows(rows[1..])
  }

  /** The team table from the header cells to the end of its section. */
  function TeamTable(headers: seq<string>, rows: seq<seq<string>>): string {
    Cells(ThOpen, ThClose, headers) + HeadRowEnd + DataRows(rows) + TableEnd
  }

  /** A runner's card: picture, then the four fields as written in the row. */
  function Card(r: Runner): string {
    CardStart + ProfileImagePath(r.name) + AltAttr + r.name
    + NameLabel + r.name + PlaceLabel + r.place + TimeLabel + r.time + GradeLabel + r.grade + CardEnd
  }

  function CardsText(runners: seq<Runner>): string {
    if |runners| == 0 then "" else Card(runners[0]) + CardsText(runners[1..])
  }

  /** The individual results section and the page's footer. */
  function IndividualSection(runners: seq<Runner>): string {
    IndividualStart + CardsText(runners) + PageEnd
  }

  /**
   * The meet page for the rows of a CSV file. It fails when there is no
   * header row, and when some data row is not four cells wide, naming the
   * width of the first such row; otherwise it holds the head, the team
   * table of all rows and one card per data row.
   */
  function CreateMeetHtml(csvRows: seq<seq<string>>, meetName: string): (r: Result<string, MeetError>)
    ensures r.Err? <==> |csvRows| == 0 || exists i :: 1 <= i < |csvRows| && |csvRows[i]| != 4
    ensures |csvRows| == 0 ==> r == Err(NoHeaderRow)
    ensures r.Err? && |csvRows| > 0 ==>
              exists i :: 1 <= i < |csvRows| && r.error == UnpackMismatch(|csvRows[i]|) && |csvRows[i]| != 4
                          && forall j :: 1 <= j < i ==> |csvRows[j]| == 4
  {
    if |csvRows| == 0 then Err(NoHeaderRow)
    else
      var data := csvRows[1..];
      assert forall i :: 1 <= i < |csvRows| ==> data[i - 1] == csvRows[i];
      match Runners(data)
      case Err(e) =>
        ghost var k :| 0 <= k < |data| && |data[k]| != 4 && e == UnpackMismatch(|data[k]|)
                       && forall j :: 0 <= j < k ==> |data[j]| == 4;
        assert |csvRows[k + 1]| != 4;
        Err(e)
      case Ok(runners) =>
        Ok(Head(meetName) + TeamTable(csvRows[0], data) + IndividualSection(runners))
  }
}

=== FILE: page_reader.dfy ===
/**
 * A reader for meet pages: it takes a rendered page apart again into the
 * meet name shown in the title and the heading, the summary, the team
 * table and the runner cards.
 *
 * The renderer copies names and cells into the markup without escaping, so
 * the page reads back as what was written only when no cell contains a `<`
 * (which would end the cell early) and no runner name contains a `'`
 * (which would end the card's `src` or `alt` attribute early).
 * `MarkupInCellsIsAmbiguous` shows that the first restriction is needed.
 */
module PageReader {
  import opened Results
  import opened Text
  import opened MeetNames
  import opened MeetPage

  /**
   * Text with no `<`: a cell, a meet name or fixed prose that cannot be
   * mistaken for markup when it is copied into the page.
   */
  predicate TagFree(text: string) {
    '<' !in text
  }

  predicate TagFreeCells(cells: seq<string>) {
    forall j :: 0 <= j < |cells| ==> TagFree(cells[j])
  }

  predicate TagFreeRows(rows: seq<seq<string>>) {
    forall i :: 0 <= i < |rows| ==> TagFreeCells(rows[i])
  }

  /** What one runner card shows. */
  datatype CardView = CardView(src: string, alt: string, name: string, place: string, time: string, grade: string)

  /** What a meet page shows. */
  datatype PageView = PageView(
    title: string,
    heading: string,
    summary: string,
    headers: seq<string>,
    rows: seq<seq<string>>,
    cards: seq<CardView>)

  /** Reads consecutive `open cell close` groups off the front of `s`; a cell ends at the next tag. */
  function ReadCells(open: string, close: string, s: string): (r: (seq<string>, string))
    requires |open| > 0
    ensures |r.1| <= |s|
    decreases |s|
  {
    match ReadField(open, '<', s)
    case None => ([], s)
    case Some(p) =>
      match Skip(close, p.1)
      case None => ([], s)
      case Some(after) =>
        var (more, rest) := ReadCells(open, close, after);
        ([p.0] + more, rest)
  }

  /** Reads consecutive table rows off the front of `s`. */
  function ReadRows(s: string): (r: (seq<seq<string>>, string))
    ensures |r.1| <= |s|
    decreases |s|
  {
    match Skip(RowOpen, s)
    case None => ([], s)
    case Some(body) =>
      var (cells, r1) := ReadCells(TdOpen, TdClose, body);
      match Skip(RowClose, r1)
      case None => ([], s)
      case Some(after) =>
        var (more, rest) := ReadRows(after);
        ([cells] + more, rest)
  }

  /** Reads the team table: header cells, data rows, and the end of the section. */
  function ReadTeamTable(s: string): Option<(seq<string>, seq<seq<string>>, string)> {
    var (headers, r1) := ReadCells(ThOpen, ThClose, s);
    var body :- Skip(HeadRowEnd, r1);
    var (rows, r2) := ReadRows(body);
    var rest :- Skip(TableEnd, r2);
    Some((headers, rows, rest))
  }

  /** Reads one runner card off the front of `s`. */
  function ReadCard(s: string): (r: Option<(CardView, string)>)
    ensures r.Some? ==> |r.value.1| < |s|
  {
    var src :- ReadField(CardStart, '\'', s);
    var alt :- ReadField(AltAttr, '\'', src.1);
    var name :- ReadField(NameLabel, '<', alt.1);
    var place :- ReadField(PlaceLabel, '<', name.1);
    var time :- ReadField(TimeLabel, '<', place.1);
    var grade :- ReadField(GradeLabel, '<', time.1);
    var rest :- Skip(CardEnd, grade.1);
    Some((CardView(src.0, alt.0, name.0, place.0, time.0, grade.0), rest))
  }

  /** Reads consecutive runner cards off the front of `s`. */
  function ReadCards(s: string): (r: (seq<CardView>, string))
    decreases |s|
  {
    match ReadCard(s)
    case None => ([], s)
    case Some(p) =>
      var (more, rest) := ReadCards(p.1);
      ([p.0] + more, rest)
  }

  /** Reads the head: the title text, the heading and the summary. */
  function ReadHead(s: string): Option<(string, string, string, string)> {
    var title :- ReadField(DocStart, '<', s);
    var heading :- ReadField(NavBlock, '<', title.1);
    var summary :- ReadField(HeadingEnd, '<', heading.1);
    var rest :- Skip(SummaryEnd, summary.1);
    Some((title.0, heading.0, summary.0, rest))
  }

  /** Reads a whole meet page, if the text has a meet page's shape. */
  function ReadMeetPage(doc: string): Option<PageView> {
    var head :- ReadHead(doc);
    var table :- ReadTeamTable(head.3);
    var cardsText :- Skip(IndividualStart, table.2);
    var (cards, rest) := ReadCards(cardsText);
    if rest == PageEnd then Some(PageView(head.0, head.1, head.2, table.0, table.1, cards)) else None
  }

  /** What the card of a runner is meant to show. */
  function ViewOf(r: Runner): CardView {
    CardView(ProfileImagePath(r.name), r.name, r.name, r.place, r.time, r.grade)
  }

  function ViewsOf(runners: seq<Runner>): (views: seq<CardView>)
    ensures |views| == |runners|
    ensures forall i :: 0 <= i < |runners| ==> views[i] == ViewOf(runners[i])
  {
    if |runners| == 0 then [] else [ViewOf(runners[0])] + ViewsOf(runners[1..])
  }

  /** A run of wrapped cells is read back cell by cell, and reading stops where the run ends. */
  lemma {:induction false} CellsReadBack(open: string, close: string, cells: seq<string>, t: string)
    requires |open| > 0 && |close| > 0 && close[0] == '<'
    requires TagFreeCells(cells)
    requires !StartsWith(t, open)
    ensures ReadCells(open, close, Cells(open, close, cells) + t) == (cells, t)
    decreases |cells|
  {
    if |cells| == 0 {
      assert Cells(open, close, cells) + t == t;
    } else {
      var c := cells[0];
      var more := cells[1..];
      assert TagFreeCells(more) by {
        assert forall j :: 0 <= j < |more| ==> more[j] == cells[j + 1];
      }
      CellsReadBack(open, close, more, t);
      var tail := Cells(open, close, more) + t;
      Regroup(open + c + close, Cells(open, close, more), t);
      Regroup(open + c, close, tail);
      Regroup(open, c, close + tail);
      ReadFieldAfter(open, c, '<', close + tail);
      SkipLiteral(close, tail);
      assert [c] + more == cells;
    }
  }

  /** Data rows, of any widths, are read back row by row. */
  lemma {:induction false} RowsReadBack(rows: seq<seq<string>>, t: string)
    requires TagFreeRows(rows)
    requires !StartsWith(t, RowOpen)
    ensures ReadRows(DataRows(rows) + t) == (rows, t)
    decreases |rows|
  {
    if |rows| == 0 {
      assert DataRows(rows) + t == t;
    } else {
      var row := rows[0];
      var more := rows[1..];
      assert TagFreeRows(more) by {
        assert forall i :: 0 <= i < |more| ==> more[i] == rows[i + 1];
      }
      RowsReadBack(more, t);
      var cells := Cells(TdOpen, TdClose, row);
      var tail := DataRows(more) + t;
      Regroup(RowOpen + cells + RowClose, DataRows(more), t);
      Regroup(RowOpen + cells, RowClose, tail);
      Regroup(RowOpen, cells, RowClose + tail);
      RowReadsBack(row, tail);
      assert [row] + more == rows;
    }
  }

  /** One table row is read back as its cells. */
  lemma RowReadsBack(row: seq<string>, tail: string)
    requires TagFreeCells(row)
    ensures ReadRows(RowOpen + (Cells(TdOpen, TdClose, row) + (RowClose + tail)))
            == ([row] + ReadRows(tail).0, ReadRows(tail).1)
  {
    var cells := Cells(TdOpen, TdClose, row);
    SkipLiteral(RowOpen, cells + (RowClose + tail));
    DiffersAt(RowClose, tail, TdOpen, 1);
    CellsReadBack(TdOpen, TdClose, row, RowClose + tail);
    SkipLiteral(RowClose, tail);
  }

  /**
   * The team table is read back as the header row and every data row,
   * cell for cell, whatever the widths of the rows.
   */
  lemma TeamTableReadsBack(headers: seq<string>, rows: seq<seq<string>>, t: string)
    requires TagFreeCells(headers) && TagFreeRows(rows)
    ensures ReadTeamTable(TeamTable(headers, rows) + t) == Some((headers, rows, t))
  {
    var head := Cells(ThOpen, ThClose, headers);
    var body := DataRows(rows);
    var bodyAndEnd := body + (TableEnd + t);
    Regroup(head + HeadRowEnd + body, TableEnd, t);
    Regroup(head + HeadRowEnd, body, TableEnd + t);
    Regroup(head, HeadRowEnd, bodyAndEnd);
    DiffersAt(HeadRowEnd, bodyAndEnd, ThOpen, 1);
    CellsReadBack(ThOpen, ThClose, headers, HeadRowEnd + bodyAndEnd);
    SkipLiteral(HeadRowEnd, bodyAndEnd);
    DiffersAt(TableEnd, t, RowOpen, 1);
    RowsReadBack(rows, TableEnd + t);
    SkipLiteral(TableEnd, t);
  }

  /** The image path holds a quote only if the runner's name does. */
  lemma ProfileImagePathUnquoted(name: string)
    requires '\'' !in name
    ensures '\'' !in ProfileImagePath(name)
  {
    var img := ImageName(name);
    assert forall i :: 0 <= i < |img| ==> img[i] != '\'';
    assert forall c :: c in ProfileImagePath(name) ==> c in "../images/profiles/" || c in img || c in ".jpg";
  }

  /** A runner card is read back as the picture path and the four fields. */
  lemma CardReadsBack(r: Runner, t: string)
    requires '\'' !in r.name && TagFreeCells(RowOf(r))
    ensures ReadCard(Card(r) + t) == Some((ViewOf(r), t))
  {
    var src := ProfileImagePath(r.name);
    assert TagFree(r.name) && TagFree(r.place) && TagFree(r.time) && TagFree(r.grade) by {
      assert RowOf(r)[0] == r.name && RowOf(r)[1] == r.place;
      assert RowOf(r)[2] == r.time && RowOf(r)[3] == r.grade;
    }
    ProfileImagePathUnquoted(r.name);
    var s6 := CardEnd + t;
    var s5 := GradeLabel + (r.grade + s6);
    var s4 := TimeLabel + (r.time + s5);
    var s3 := PlaceLabel + (r.place + s4);
    var s2 := NameLabel + (r.name + s3);
    var s1 := AltAttr + (r.name + s2);
    CardNests(r, t);
    ReadFieldAfter(CardStart, src, '\'', s1);
    ReadFieldAfter(AltAttr, r.name, '\'', s2);
    ReadFieldAfter(NameLabel, r.name, '<', s3);
    ReadFieldAfter(PlaceLabel, r.place, '<', s4);
    ReadFieldAfter(TimeLabel, r.time, '<', s5);
    ReadFieldAfter(GradeLabel, r.grade, '<', s6);
    SkipLiteral(CardEnd, t);
  }

  /** A card followed by `t`, regrouped so that each literal is followed by its field and the rest. */
  lemma CardNests(r: Runner, t: string)
    ensures Card(r) + t
            == CardStart + (ProfileImagePath(r.name) + (AltAttr + (r.name + (NameLabel + (r.name
               + (PlaceLabel + (r.place + (TimeLabel + (r.time + (GradeLabel + (r.grade + (CardEnd + t))))))))))))
  {
    var src := ProfileImagePath(r.name);
    var p1 := CardStart + src;
    var p2 := p1 + AltAttr;
    var p3 := p2 + r.name;
    var p4 := p3 + NameLabel;
    var p5 := p4 + r.name;
    var p6 := p5 + PlaceLabel;
    var p7 := p6 + r.place;
    var p8 := p7 + TimeLabel;
    var p9 := p8 + r.time;
    var p10 := p9 + GradeLabel;
    var p11 := p10 + r.grade;
    var s12 := CardEnd + t;
    var s11 := r.grade + s12;
    var s10 := GradeLabel + s11;
    var s9 := r.time + s10;
    var s8 := TimeLabel + s9;
    var s7 := r.place + s8;
    var s6 := PlaceLabel + s7;
    var s5 := r.name + s6;
    var s4 := NameLabel + s5;
    var s3 := r.name + s4;
    var s2 := AltAttr + s3;
    var s1 := src + s2;
    Regroup(p11, CardEnd, t);
    Regroup(p10, r.grade, s12);
    Regroup(p9, GradeLabel, s11);
    Regroup(p8, r.time, s10);
    Regroup(p7, TimeLabel, s9);
    Regroup(p6, r.place, s8);
    Regroup(p5, PlaceLabel, s7);
    Regroup(p4, r.name, s6);
    Regroup(p3, NameLabel, s5);
    Regroup(p2, r.name, s4);
    Regroup(p1, AltAttr, s3);
    Regroup(CardStart, src, s2);
  }

  /** Consecutive cards are read back card by card. */
  lemma {:induction false} CardsReadBack(runners: seq<Runner>, t: string)
    requires forall i :: 0 <= i < |runners| ==> '\'' !in runners[i].name && TagFreeCells(RowOf(runners[i]))
    requires !StartsWith(t, CardStart)
    ensures ReadCards(CardsText(runners) + t) == (ViewsOf(runners), t)
    decreases |runners|
  {
    if |runners| == 0 {
      assert CardsText(runners) + t == t;
    } else {
      var more := runners[1..];
      assert forall i :: 0 <= i < |more| ==> more[i] == runners[i + 1];
      CardsReadBack(more, t);
      var tail := CardsText(more) + t;
      Regroup(Card(runners[0]), CardsText(more), t);
      CardReadsBack(runners[0], tail);
      assert ViewsOf(runners) == [ViewOf(runners[0])] + ViewsOf(more);
    }
  }

  lemma SummaryPiecesAreTagFree()
    ensures TagFree(SummaryLead) && TagFree(Placeholder) && TagFree(SummaryTail)
  {
  }

  /** The summary prose holds no tag, so it reads back whole. */
  lemma SummaryIsTagFree()
    ensures TagFree(SummaryText)
    ensures SummaryText[|SummaryLead|..|SummaryLead| + |Placeholder|] == Placeholder
  {
    SummaryPiecesAreTagFree();
    assert forall c :: c in SummaryText ==> c in SummaryLead || c in Placeholder || c in SummaryTail;
    var n := |SummaryLead| + |Placeholder|;
    ConcatSplits(SummaryLead + Placeholder, SummaryTail);
    ConcatSplits(SummaryLead, Placeholder);
    assert SummaryText[|SummaryLead|..n] == SummaryText[..n][|SummaryLead|..];
  }

  /** The head is read back as the title, the heading and the summary. */
  lemma HeadReadsBack(meetName: string, t: string)
    requires TagFree(meetName)
    ensures ReadHead(Head(meetName) + t) == Some((meetName + TitleSuffix, meetName, SummaryText, t))
  {
    var title := meetName + TitleSuffix;
    assert TagFree(title) by {
      assert forall c :: c in title ==> c in meetName || c in TitleSuffix;
    }
    SummaryIsTagFree();
    HeadNests(meetName, t);
    var s3 := HeadingEnd + (SummaryText + (SummaryEnd + t));
    var s2 := NavBlock + (meetName + s3);
    ReadFieldAfter(DocStart, title, '<', s2);
    ReadFieldAfter(NavBlock, meetName, '<', s3);
    ReadFieldAfter(HeadingEnd, SummaryText, '<', SummaryEnd + t);
    SkipLiteral(SummaryEnd, t);
  }

  /** The head followed by `t`, regrouped so that each literal is followed by its field and the rest. */
  lemma HeadNests(meetName: string, t: string)
    ensures Head(meetName) + t
            == DocStart + ((meetName + TitleSuffix) + (NavBlock + (meetName
               + (HeadingEnd + (SummaryText + (SummaryEnd + t))))))
  {
    var s4 := SummaryText + (SummaryEnd + t);
    var s3 := HeadingEnd + s4;
    var s2 := NavBlock + (meetName + s3);
    var p1 := DocStart + meetName;
    var p2 := p1 + TitleSuffix;
    var p3 := p2 + NavBlock;
    var p4 := p3 + meetName;
    var p5 := p4 + HeadingEnd;
    Regroup(p5 + SummaryText, SummaryEnd, t);
    Regroup(p5, SummaryText, SummaryEnd + t);
    Regroup(p4, HeadingEnd, s4);
    Regroup(p3, meetName, s3);
    Regroup(p2, NavBlock, meetName + s3);
    Regroup(p1, TitleSuffix, s2);
    Regroup(DocStart, meetName, TitleSuffix + s2);
    Regroup(DocStart, meetName + TitleSuffix, s2);
    Regroup(meetName, TitleSuffix, s2);
  }

  /**
   * A rendered meet page reads back as what it was rendered from: the title
   * is the meet name followed by " Results", the heading is the meet name,
   * the summary is the fixed prose with `{meet_name}` left in it, the table
   * holds the header row and every data row verbatim, and there is one card
   * per data row, in order, showing the picture path derived from the
   * runner's name and the four fields as written.
   */
  lemma MeetPageReadsBack(csvRows: seq<seq<string>>, meetName: string)
    requires |csvRows| > 0 && forall i :: 1 <= i < |csvRows| ==> |csvRows[i]| == 4
    requires TagFree(meetName) && TagFreeRows(csvRows)
    requires forall i :: 1 <= i < |csvRows| && |csvRows[i]| > 0 ==> '\'' !in csvRows[i][0]
    ensures CreateMeetHtml(csvRows, meetName).Ok?
    ensures var page := ReadMeetPage(CreateMeetHtml(csvRows, meetName).value);
            && page.Some?
            && page.value.title == meetName + " Results"
            && page.value.heading == meetName
            && page.value.summary == SummaryText
            && SummaryText[|SummaryLead|..|SummaryLead| + |Placeholder|] == Placeholder
            && page.value.headers == csvRows[0]
            && page.value.rows == csvRows[1..]
            && |page.value.cards| == |csvRows| - 1
            && forall i :: 1 <= i < |csvRows| ==>
                 page.value.cards[i - 1]
                 == CardView(ProfileImagePath(csvRows[i][0]), csvRows[i][0], csvRows[i][0],
                             csvRows[i][1], csvRows[i][2], csvRows[i][3])
  {
    var data := csvRows[1..];
    assert TagFreeRows(data) by {
      assert forall i :: 0 <= i < |data| ==> data[i] == csvRows[i + 1];
    }
    DataRowsAsRunners(csvRows);
    RenderedParts(csvRows, meetName);
    PageReadsBack(meetName, csvRows[0], data, Runners(data).value);
    SummaryIsTagFree();
  }

  /**
   * The data rows of a page that renders unpack into runners whose cards
   * read back, and whose views are the rows' fields.
   */
  lemma DataRowsAsRunners(csvRows: seq<seq<string>>)
    requires |csvRows| > 0 && forall i :: 1 <= i < |csvRows| ==> |csvRows[i]| == 4
    requires TagFreeRows(csvRows)
    requires forall i :: 1 <= i < |csvRows| && |csvRows[i]| > 0 ==> '\'' !in csvRows[i][0]
    ensures Runners(csvRows[1..]).Ok?
    ensures var runners := Runners(csvRows[1..]).value;
            && (forall i :: 0 <= i < |runners| ==> '\'' !in runners[i].name && TagFreeCells(RowOf(runners[i])))
            && |ViewsOf(runners)| == |csvRows| - 1
            && forall i :: 1 <= i < |csvRows| ==>
                 ViewsOf(runners)[i - 1]
                 == CardView(ProfileImagePath(csvRows[i][0]), csvRows[i][0], csvRows[i][0],
                             csvRows[i][1], csvRows[i][2], csvRows[i][3])
  {
    var data := csvRows[1..];
    assert forall i :: 0 <= i < |data| ==> data[i] == csvRows[i + 1];
    var runners := Runners(data).value;
    forall i | 0 <= i < |runners|
      ensures '\'' !in runners[i].name && TagFreeCells(RowOf(runners[i]))
    {
      assert RowOf(runners[i]) == csvRows[i + 1];
      assert RowOf(runners[i])[0] == runners[i].name;
    }
    forall i | 1 <= i < |csvRows|
      ensures ViewsOf(runners)[i - 1]
              == CardView(ProfileImagePath(csvRows[i][0]), csvRows[i][0], csvRows[i][0],
                          csvRows[i][1], csvRows[i][2], csvRows[i][3])
    {
      var r := runners[i - 1];
      assert RowOf(r) == csvRows[i];
      assert RowOf(r)[0] == r.name && RowOf(r)[1] == r.place;
      assert RowOf(r)[2] == r.time && RowOf(r)[3] == r.grade;
    }
  }

  /** A page that renders is its head, its team table and its individual results section. */
  lemma RenderedParts(csvRows: seq<seq<string>>, meetName: string)
    requires |csvRows| > 0 && forall i :: 1 <= i < |csvRows| ==> |csvRows[i]| == 4
    ensures Runners(csvRows[1..]).Ok?
    ensures CreateMeetHtml(csvRows, meetName)
            == Ok(Head(meetName) + (TeamTable(csvRows[0], csvRows[1..]) + IndividualSection(Runners(csvRows[1..]).value)))
  {
    var data := csvRows[1..];
    assert forall i :: 0 <= i < |data| ==> |data[i]| == 4 by {
      assert forall i :: 0 <= i < |data| ==> data[i] == csvRows[i + 1];
    }
    assert Runners(data).Ok?;
    var page := Head(meetName) + TeamTable(csvRows[0], data) + IndividualSection(Runners(data).value);
    assert CreateMeetHtml(csvRows, meetName) == Ok(page);
    Regroup(Head(meetName), TeamTable(csvRows[0], data), IndividualSection(Runners(data).value));
  }

  /** A page assembled from its three parts reads back part by part. */
  lemma PageReadsBack(meetName: string, headers: seq<string>, rows: seq<seq<string>>, runners: seq<Runner>)
    requires TagFree(meetName) && TagFreeCells(headers) && TagFreeRows(rows)
    requires forall i :: 0 <= i < |runners| ==> '\'' !in runners[i].name && TagFreeCells(RowOf(runners[i]))
    ensures ReadMeetPage(Head(meetName) + (TeamTable(headers, rows) + IndividualSection(runners)))
            == Some(PageView(meetName + TitleSuffix, meetName, SummaryText, headers, rows, ViewsOf(runners)))
  {
    var ind := IndividualSection(runners);
    HeadReadsBack(meetName, TeamTable(headers, rows) + ind);
    TeamTableReadsBack(headers, rows, ind);
    IndividualReadsBack(runners);
    ReadMeetPageSteps(Head(meetName) + (TeamTable(headers, rows) + ind), meetName + TitleSuffix, meetName,
                      SummaryText, TeamTable(headers, rows) + ind, headers, rows, ind,
                      CardsText(runners) + PageEnd, ViewsOf(runners));
  }

  /** The reader of a page takes the head, the table, and the cards in turn. */
  lemma ReadMeetPageSteps(doc: string, title: string, heading: string, summary: string, afterHead: string,
                          headers: seq<string>, rows: seq<seq<string>>, afterTable: string,
                          cardsText: string, cards: seq<CardView>)
    requires ReadHead(doc) == Some((title, heading, summary, afterHead))
    requires ReadTeamTable(afterHead) == Some((headers, rows, afterTable))
    requires Skip(IndividualStart, afterTable) == Some(cardsText)
    requires ReadCards(cardsText) == (cards, PageEnd)
    ensures ReadMeetPage(doc) == Some(PageView(title, heading, summary, headers, rows, cards))
  {
  }

  /** The individual results section reads back as one card per runner, then the page's end. */
  lemma IndividualReadsBack(runners: seq<Runner>)
    requires forall i :: 0 <= i < |runners| ==> '\'' !in runners[i].name && TagFreeCells(RowOf(runners[i]))
    ensures Skip(IndividualStart, IndividualSection(runners)) == Some(CardsText(runners) + PageEnd)
    ensures ReadCards(CardsText(runners) + PageEnd) == (ViewsOf(runners), PageEnd)
  {
    var cardsText := CardsText(runners) + PageEnd;
    Regroup(IndividualStart, CardsText(runners), PageEnd);
    SkipLiteral(IndividualStart, cardsText);
    PageEndIsNotACard();
    CardsReadBack(runners, PageEnd);
  }

  lemma PageEndIsNotACard()
    ensures !StartsWith(PageEnd, CardStart)
  {
    assert PageEnd[1] != CardStart[1];
  }

  /**
   * The two passes disagree on what they accept: a data row that is not four
   * cells wide is rendered and read back by the team table, yet it makes the
   * whole page fail in the card pass.
   */
  lemma TableAcceptsWhatCardsRefuse(csvRows: seq<seq<string>>, meetName: string, k: nat)
    requires 1 <= k < |csvRows| && |csvRows[k]| != 4
    requires TagFreeRows(csvRows)
    ensures ReadTeamTable(TeamTable(csvRows[0], csvRows[1..])) == Some((csvRows[0], csvRows[1..], ""))
    ensures CreateMeetHtml(csvRows, meetName).Err?
  {
    var data := csvRows[1..];
    assert TagFreeRows(data) by {
      assert forall i :: 0 <= i < |data| ==> data[i] == csvRows[i + 1];
    }
    TeamTableReadsBack(csvRows[0], data, "");
    assert TeamTable(csvRows[0], data) + "" == TeamTable(csvRows[0], data);
  }

  /**
   * Without the restriction on cells the table is ambiguous: a header cell
   * that itself contains `</th><th>` renders exactly like two header cells.
   */
  lemma MarkupInCellsIsAmbiguous(a: string, b: string)
    ensures [a + ThClose + ThOpen + b] != [a, b]
    ensures Cells(ThOpen, ThClose, [a + ThClose + ThOpen + b]) == Cells(ThOpen, ThClose, [a, b])
  {
    var joined := a + ThClose + ThOpen + b;
    assert Cells(ThOpen, ThClose, [joined]) == ThOpen + joined + ThClose + Cells(ThOpen, ThClose, []);
    assert Cells(ThOpen, ThClose, [a, b]) == ThOpen + a + ThClose + Cells(ThOpen, ThClose, [b]);
    assert [a, b][1..] == [b];
    assert Cells(ThOpen, ThClose, [b]) == ThOpen + b + ThClose + Cells(ThOpen, ThClose, []);
  }
}

=== FILE: results.dfy ===
/**
 * Failure-carrying values. `Result` stands for the generator's fatal
 * exceptions (an empty CSV file, a row that does not unpack into four
 * fields, a source file that cannot be opened); `Option` is what the page
 * readers return when a text is not in the shape they expect.
 */
module Results {

  datatype Option<+T> = None | Some(value: T) {
    predicate IsFailure() {
      None?
    }

    function PropagateFailure<U>(): Option<U>
      requires None?
    {
      None
    }

    function Extract(): T
      requires Some?
    {
      value
    }
  }

  datatype Result<+T, +E> = Ok(value: T) | Err(error: E)
}

=== FILE: text.dfy ===
/**
 * The handful of Python string operations the generator relies on:
 * `str.endswith`, `str.replace` (every occurrence, scanned left to right,
 * occurrences never overlapping), and a "take characters up to a stop
 * character" helper that the page readers use to pull a field back out of
 * rendered markup.
 */
module Text {
  import opened Results

  /** Python's `s.endswith(suffix)`. */
  predicate EndsWith(s: string, suffix: string) {
    |suffix| <= |s| && s[|s| - |suffix|..] == suffix
  }

  /** No proper suffix of `pat` is also a prefix of it, so two occurrences
      of `pat` in a string can never overlap. */
  predicate NoSelfOverlap(pat: string) {
    forall k :: 0 < k < |pat| ==> pat[k..] != pat[..|pat| - k]
  }

  /** Python's `s.startswith(prefix)`. */
  predicate StartsWith(s: string, prefix: string) {
    |prefix| <= |s| && s[..|prefix|] == prefix
  }

  /**
   * Python's `s.replace(pat, rep)`. The scan starts at the left; when `pat`
   * starts at the current position it is replaced and the scan resumes just
   * after it, otherwise one character is copied. An empty `pat` matches
   * before every character and at the end, as in Python
   * (`"ab".replace("", "X") == "XaXbX"`).
   */
  function ReplaceAll(s: string, pat: string, rep: string): string {
    if |pat| == 0 then ReplaceEmpty(s, rep) else ReplaceScan(s, pat, rep)
  }

  function ReplaceEmpty(s: string, rep: string): string
    decreases |s|
  {
    if |s| == 0 then rep else rep + [s[0]] + ReplaceEmpty(s[1..], rep)
  }

  function ReplaceScan(s: string, pat: string, rep: string): string
    requires |pat| > 0
    decreases |s|
  {
    if |s| == 0 then []
    else if StartsWith(s, pat) then rep + ReplaceScan(s[|pat|..], pat, rep)
    else [s[0]] + ReplaceScan(s[1..], pat, rep)
  }

  /** Every character of a replacement result comes from the input or from
      the replacement text: `replace` never invents characters. */
  lemma {:induction false} ReplaceAllChars(s: string, pat: string, rep: string)
    ensures forall c :: c in ReplaceAll(s, pat, rep) ==> c in s || c in rep
    decreases |s|
  {
    if |s| == 0 {
    } else if |pat| == 0 {
      ReplaceAllChars(s[1..], pat, rep);
      assert forall c :: c in s[1..] ==> c in s;
    } else if StartsWith(s, pat) {
      ReplaceAllChars(s[|pat|..], pat, rep);
      assert forall c :: c in s[|pat|..] ==> c in s;
    } else {
      ReplaceAllChars(s[1..], pat, rep);
      assert forall c :: c in s[1..] ==> c in s;
    }
  }

  /** Replacing one character by another is a character-by-character map:
      the length is kept and every other character stays where it was. */
  lemma {:induction false} ReplaceCharPointwise(s: string, a: char, b: char)
    ensures |ReplaceAll(s, [a], [b])| == |s|
    ensures forall i :: 0 <= i < |s| ==>
              ReplaceAll(s, [a], [b])[i] == if s[i] == a then b else s[i]
    decreases |s|
  {
    if |s| > 0 {
      ReplaceCharPointwise(s[1..], a, b);
      var tail := ReplaceAll(s[1..], [a], [b]);
      assert StartsWith(s, [a]) <==> s[0] == a;
      if s[0] == a {
        assert s[|[a]|..] == s[1..];
        assert ReplaceAll(s, [a], [b]) == [b] + tail;
      } else {
        assert ReplaceAll(s, [a], [b]) == [s[0]] + tail;
      }
    }
  }

  /** A replacement leaves a string alone when the pattern occurs nowhere in it. */
  lemma {:induction false} ReplaceAllWithoutOccurrence(s: string, pat: string, rep: string)
    requires |pat| > 0
    requires forall i :: 0 <= i < |s| ==> !StartsWith(s[i..], pat)
    ensures ReplaceAll(s, pat, rep) == s
    decreases |s|
  {
    if |s| > 0 {
      assert s[0..] == s;
      forall i | 0 <= i < |s[1..]|
        ensures !StartsWith(s[1..][i..], pat)
      {
        assert s[1..][i..] == s[i + 1..];
      }
      ReplaceAllWithoutOccurrence(s[1..], pat, rep);
    }
  }

  /**
   * When the pattern cannot overlap itself, an occurrence that follows `x`
   * is always found by the scan and replaced, and splits the result in two:
   * what is before it and what is after it are rewritten independently.
   */
  lemma {:induction false} ReplaceAllAtOccurrence(x: string, pat: string, y: string, rep: string)
    requires |pat| > 0 && NoSelfOverlap(pat)
    ensures ReplaceAll(x + pat + y, pat, rep) == ReplaceAll(x, pat, rep) + rep + ReplaceAll(y, pat, rep)
    decreases |x|
  {
    var s := x + pat + y;
    if |x| == 0 {
      assert s == pat + y && StartsWith(s, pat);
      assert s[|pat|..] == y;
    } else if StartsWith(s, pat) {
      if |x| >= |pat| {
        ReplaceAllAtOccurrence(x[|pat|..], pat, y, rep);
        ScanStepOverMatch(x, pat, y, rep);
      } else {
        // the occurrence at 0 and the one at |x| would overlap
        assert s[|x|..|x| + |pat|] == pat;
        SelfOverlapWitness(pat, s, |x|);
        assert false;
      }
    } else {
      ReplaceAllAtOccurrence(x[1..], pat, y, rep);
      ScanStepOverChar(x, pat, y, rep);
    }
  }

  /** One step of the scan over a match. */
  lemma ScanMatch(s: string, pat: string, rep: string)
    requires |pat| > 0 && StartsWith(s, pat)
    ensures ReplaceScan(s, pat, rep) == rep + ReplaceScan(s[|pat|..], pat, rep)
  {
  }

  /** One step of the scan over a character that does not start a match. */
  lemma ScanCopy(s: string, pat: string, rep: string)
    requires |pat| > 0 && |s| > 0 && !StartsWith(s, pat)
    ensures ReplaceScan(s, pat, rep) == [s[0]] + ReplaceScan(s[1..], pat, rep)
  {
  }

  /** A prefix of `x` is a prefix of every extension of `x`. */
  lemma StartsWithExtends(x: string, z: string, pat: string)
    ensures StartsWith(x, pat) ==> StartsWith(x + z, pat)
  {
    if StartsWith(x, pat) {
      assert (x + z)[..|pat|] == x[..|pat|];
    }
  }

  /** The inductive step of `ReplaceAllAtOccurrence` when `x` starts with a match. */
  lemma ScanStepOverMatch(x: string, pat: string, y: string, rep: string)
    requires |pat| > 0 && StartsWith(x, pat)
    requires ReplaceScan(x[|pat|..] + pat + y, pat, rep)
             == ReplaceScan(x[|pat|..], pat, rep) + rep + ReplaceScan(y, pat, rep)
    ensures ReplaceScan(x + pat + y, pat, rep) == ReplaceScan(x, pat, rep) + rep + ReplaceScan(y, pat, rep)
  {
    var s := x + pat + y;
    var x' := x[|pat|..];
    assert x == pat + x' by {
      assert x[..|pat|] == pat;
    }
    Regroup(pat + x', pat, y);
    Regroup(pat, x', pat + y);
    Regroup(x', pat, y);
    ConcatSplits(pat, x' + pat + y);
    ScanMatch(s, pat, rep);
    ScanMatch(x, pat, rep);
    var A := ReplaceScan(x', pat, rep);
    var Y := ReplaceScan(y, pat, rep);
    Regroup(rep + A, rep, Y);
    Regroup(rep, A, rep + Y);
    Regroup(A, rep, Y);
  }

  /** The inductive step of `ReplaceAllAtOccurrence` when the scan copies a character. */
  lemma ScanStepOverChar(x: string, pat: string, y: string, rep: string)
    requires |pat| > 0 && |x| > 0 && !StartsWith(x + pat + y, pat)
    requires ReplaceScan(x[1..] + pat + y, pat, rep)
             == ReplaceScan(x[1..], pat, rep) + rep + ReplaceScan(y, pat, rep)
    ensures ReplaceScan(x + pat + y, pat, rep) == ReplaceScan(x, pat, rep) + rep + ReplaceScan(y, pat, rep)
  {
    var s := x + pat + y;
    var x' := x[1..];
    StartsWithExtends(x, pat + y, pat);
    assert x + (pat + y) == s;
    assert s[1..] == x' + pat + y;
    ScanCopy(s, pat, rep);
    ScanCopy(x, pat, rep);
    var A := ReplaceScan(x', pat, rep);
    var Y := ReplaceScan(y, pat, rep);
    Regroup([x[0]] + A, rep, Y);
    Regroup([x[0]], A, rep + Y);
    Regroup(A, rep, Y);
  }

  /** Two occurrences of `pat` in `s`, at 0 and at `k`, that overlap. */
  lemma SelfOverlapWitness(pat: string, s: string, k: nat)
    requires 0 < k < |pat| && StartsWith(s, pat) && k + |pat| <= |s| && s[k..k + |pat|] == pat
    ensures pat[k..] == pat[..|pat| - k]
  {
    assert pat[k..] == s[k..|pat|];
  }

  /**
   * Splits `s` at the first `stop` character: the part before it and the
   * rest, which is empty or starts with `stop`.
   */
  function TakeUntil(s: string, stop: char): (r: (string, string))
    ensures r.0 + r.1 == s
    ensures stop !in r.0
    ensures r.1 == [] || r.1[0] == stop
    decreases |s|
  {
    if |s| == 0 || s[0] == stop then ([], s)
    else
      var (before, after) := TakeUntil(s[1..], stop);
      ([s[0]] + before, after)
  }

  /** A field free of `stop`, followed by text that starts with `stop`, is
      split back off exactly. */
  lemma {:induction false} TakeUntilField(field: string, stop: char, rest: string)
    requires stop !in field
    requires rest == [] || rest[0] == stop
    ensures TakeUntil(field + rest, stop) == (field, rest)
    decreases |field|
  {
    if |field| > 0 {
      var s := field + rest;
      assert s[0] == field[0] != stop;
      assert s[1..] == field[1..] + rest;
      TakeUntilField(field[1..], stop, rest);
      assert TakeUntil(s, stop) == ([s[0]] + field[1..], rest);
      assert [s[0]] + field[1..] == field;
    } else {
      assert field + rest == rest;
    }
  }

  /** Concatenation regroups freely. */
  lemma Regroup(a: string, b: string, c: string)
    ensures a + b + c == a + (b + c)
  {
  }

  /** The front part of a concatenation is a prefix of it, and dropping it leaves the rest. */
  lemma ConcatSplits(a: string, b: string)
    ensures StartsWith(a + b, a)
    ensures (a + b)[|a|..] == b
  {
    assert (a + b)[..|a|] == a;
  }

  /** A text that disagrees with `pat` at some position within both does not start with it. */
  lemma DiffersAt(lit: string, x: string, pat: string, k: nat)
    requires k < |lit| && k < |pat| && lit[k] != pat[k]
    ensures !StartsWith(lit + x, pat)
  {
    assert (lit + x)[k] == lit[k];
  }

  /** Drops the literal `lit` from the front of `s`, if `s` starts with it. */
  function Skip(lit: string, s: string): (r: Option<string>)
    ensures r.Some? ==> lit + r.value == s
  {
    if StartsWith(s, lit) then Some(s[|lit|..]) else None
  }

  /**
   * Drops the literal `lit` from the front of `s` and splits what follows at
   * the first `stop`: the field and the rest, which starts with `stop`.
   */
  function ReadField(lit: string, stop: char, s: string): (r: Option<(string, string)>)
    ensures r.Some? ==> lit + r.value.0 + r.value.1 == s && stop !in r.value.0
  {
    if StartsWith(s, lit) then
      var (field, rest) := TakeUntil(s[|lit|..], stop);
      assert lit + s[|lit|..] == s;
      Some((field, rest))
    else None
  }

  lemma SkipLiteral(lit: string, t: string)
    ensures Skip(lit, lit + t) == Some(t)
  {
    ConcatSplits(lit, t);
  }

  /** A literal and a field free of `stop`, followed by `stop`, are read back exactly. */
  lemma ReadFieldAfter(lit: string, field: string, stop: char, t: string)
    requires stop !in field
    requires t == [] || t[0] == stop
    ensures ReadField(lit, stop, lit + (field + t)) == Some((field, t))
  {
    ConcatSplits(lit, field + t);
    TakeUntilField(field, stop, t);
  }
}
